=== FILE: README.md ===
# consentadmin: consent reconciliation, modelled in Dafny

This project models the consent administration page of the SimpleSAMLphp
`consentAdmin` module (`lib/Controller/ConsentAdmin.php`, `main` and
`driveProcessingChain`). The page works out who the user is: the `source`
string and the user id. It then does one of two things:

- **Checkbox action** (both `action` and `cv` given): it recomputes the
  service provider's (SP's) targeted id and attribute hash and saves or
  deletes the consent.
- **Listing**: it lists every SP that is not consent-disabled. Each SP gets
  a status: `none` (never consented), `ok` (consent matches the attributes
  released now) or `changed` (the attributes differ from those consented
  to).

Modules, one per file:

- `Wrappers` (`wrappers.dfy`): `Option` for PHP `null`, `Result` for thrown exceptions.
- `Types` (`types.dfy`): attributes, metadata values, errors, the chain state, and the collaborators. The collaborators are the salted hashes `getHashedUserID`, `getTargetedID` and `getAttributeHash`, plus the processing chain's `processStatePassive`. They are function-valued fields, so every lemma holds for all of them.
- `Strings` (`strings.dfy`): `strpos` (first occurrence) and the split at the first separator.
- `Identity` (`identity.dfy`): the `source` string, the user-id attribute, and the user id.
- `Release` (`release.dfy`): `driveProcessingChain`. This covers bridge injection, the passive chain, the `attributes.exclude` filter, `destination`, the targeted id and the attribute hash.
- `Consents` (`consents.dfy`): the fold of stored consents, the three-way status, and the consent store. The store is a table of rows with an upsert save.
- `Listing` (`listing.dfy`): the consent-disabled filter, the display fields, and the listing loop. The loop comes in two versions: as written and corrected.
- `Action` (`action.dfy`): dispatch on `action`.
- `ConsentAdmin` (`consent_admin.dfy`): `main` as `Serve`, and the corrected `ServeCorrected`.
- `RoundTrips` (`round_trips.dfy`): what an action does to the next listing.

`Serve` is `Prepare` followed by either `ApplyAction` or `ShowListing`.
The round-trip lemmas therefore relate an action and the following listing
through one shared `Prepare` result: the same user, session, metadata and
configuration.

`Serve` follows the controller as written: each SP's chain input is the
previous SP's released attributes (see Findings). `ServeCorrected` differs
only in the listing loop.

Two behaviours of the controller worth stating:

- An unknown `action` value gives `isStored = null` with no store call and no error (lines 244-247). `tests/src/Controller/ConsentAdminTest.php:254-274` expects a successful page for `action=unknown`; the older `tests/lib/Controller/ConsentAdminTest.php:198-220` expected an exception.
- `action=false` returns `isStored = false` whatever row count `deleteConsent` reports (lines 240-243). A revoke that removes nothing is not an error.

## Model

| member | source | states |
|---|---|---|
| Identity.BridgedAndLocalDistinct | lib/Controller/ConsentAdmin.php:160-167 | A bridged source `saml20-idp-remote|idp` never equals a local `metadata-set|entityid` source, provided the hosted metadata set is neither the remote set nor contains `|` |
| Identity.UserIdAttributeName | lib/Controller/ConsentAdmin.php:169-174 | The attribute is `userid.attribute` when that is set to a string, and `eduPersonPrincipalName` in every other case |
| Identity.ResolveUserId | lib/Controller/ConsentAdmin.php:176-185 | Fails with the attribute name exactly when the attribute is missing or has no values; otherwise yields its first value |
| Release.BridgedIdp | lib/Controller/ConsentAdmin.php:382-387 | The chain gets a remote IdP exactly when `source` contains `-idp-remote|`; it is the text after the first `|` |
| Release.BridgedSourceRoundTrip | lib/Controller/ConsentAdmin.php:383-387 | For a source built from a remote IdP (line 163), the injection recovers exactly that IdP |
| Release.LocalSourceNotBridged | lib/Controller/ConsentAdmin.php:383-387 | A local source is never injected when neither part contains `|` and the metadata set does not end in `-idp-remote` |
| Release.InitialState | lib/Controller/ConsentAdmin.php:373-387 | The chain state carries the given attributes, the SP's metadata as the destination and the hosted IdP's as the source, is passive, and holds the bridged IdP derived from `source` |
| Release.ExcludeAttributes | lib/Controller/ConsentAdmin.php:396-401 | No excluded name remains, every other attribute keeps its exact values, and no attribute is added |
| Release.ExcludedAttributesIgnored | lib/Controller/ConsentAdmin.php:396-409 | Chain outputs that agree outside the excluded names give the same released set, so excluded attributes cannot affect the hash |
| Release.DeleteExcludedFirst | lib/Controller/ConsentAdmin.php:396-401 | Deleting an excluded attribute before filtering gives the same result as not deleting it |
| Release.ExcludeIdempotent | lib/Controller/ConsentAdmin.php:396-401 | Filtering twice is filtering once |
| Release.ReleaseTo | lib/Controller/ConsentAdmin.php:389-401 | Fails exactly when the chain fails; otherwise the released set is the chain's output without the excluded names, with no name added |
| Release.DestinationInjective | lib/Controller/ConsentAdmin.php:406 | `metadata-set|entityid` determines both parts when the metadata set has no `|`, so distinct SPs get distinct destinations |
| Release.DestinationParts | lib/Controller/ConsentAdmin.php:406 | A destination is the SP's metadata set name, `|`, then the entity id |
| Release.TargetedIdIgnoresAttributes | lib/Controller/ConsentAdmin.php:406-408 | The targeted id is the same whatever attributes the chain is given, since it is computed from user, source and destination only |
| Release.DriveProcessingChain | lib/Controller/ConsentAdmin.php:354-417 | The targeted id depends only on user, source and destination; the hash is taken over exactly the released, filtered attributes |
| Types.GetMetaData | lib/Controller/ConsentAdmin.php:271 | Looking up an unknown SP fails with that entity id; otherwise yields its metadata record |
| Listing.DisabledIds | lib/Controller/ConsentAdmin.php:196-197 | The ids iterated are the values of `consent.disable` when it is an array, and none otherwise |
| Listing.RemoveKey | lib/Controller/ConsentAdmin.php:198-200 | Removes the SP with that id and keeps all others; an id not in the list changes nothing |
| Listing.KeepEnabled | lib/Controller/ConsentAdmin.php:195-202 | An SP remains exactly when its id is not disabled, and no SP is added |
| Listing.RemoveDisabled | lib/Controller/ConsentAdmin.php:195-202 | The loop of one `unset` per disabled id equals keeping exactly the enabled SPs in original order |
| Consents.FoldConsents | lib/Controller/ConsentAdmin.php:257-260 | The map has exactly the list's targeted ids as keys; each maps to the hash of the last pair with that id |
| Consents.FoldEntriesFromList | lib/Controller/ConsentAdmin.php:257-260 | Every (id, hash) entry of the map is a pair of the list |
| Consents.FoldSize | lib/Controller/ConsentAdmin.php:257-260 | The map has no more entries than the list has pairs |
| Consents.Classify | lib/Controller/ConsentAdmin.php:286-298 | `none` iff no stored consent for the targeted id; `ok` iff stored with an equal hash; `changed` iff stored with a different hash |
| Listing.DisplayName | lib/Controller/ConsentAdmin.php:300-309 | Tests the list record but reads the metadata record: its `name` if listed as array or string, else its `OrganizationDisplayName` if listed as array, else the entity id |
| Listing.Description | lib/Controller/ConsentAdmin.php:311-315 | Set exactly when the metadata description is a non-empty array, otherwise null |
| Listing.ServiceUrl | lib/Controller/ConsentAdmin.php:317-318 | `ServiceURL` when set (present and non-null), otherwise null |
| Listing.ListAsWritten | lib/Controller/ConsentAdmin.php:268-330 | One row per SP in order, keyed by entity id and describing its SP, with the status classifying the stored consent against the row's hash (`RowsDescribe`, indexed by `RowsDescribeAt`); the first SP's chain runs on the session's attributes, every later one on the previous SP's released set (`RowsThreaded`, indexed by `RowsThreadedAt`) |
| Listing.ListFresh | lib/Controller/ConsentAdmin.php:274-283 | Corrected loop: the same rows, but every SP's released set is computed from the session's attributes (`RowsFresh`, indexed by `RowsFreshAt`) |
| Listing.ListAsWrittenSucceeds | lib/Controller/ConsentAdmin.php:268-283 | The as-written loop fails only when an SP's metadata is missing or a chain run fails: it succeeds exactly when every SP is found and every threaded chain run succeeds |
| Listing.ListFreshSucceeds | lib/Controller/ConsentAdmin.php:268-283 | The corrected loop succeeds exactly when every SP is found and its chain runs on the session's attributes |
| Listing.MakeEntry | lib/Controller/ConsentAdmin.php:321-329 | The row is keyed and valued by the entity id, carries the released attributes, its status classifies the released targeted id and hash against the stored consents, and its name, description and service URL are the display fields of the SP's metadata |
| Consents.GetConsents | lib/Controller/ConsentAdmin.php:254 | The user's consent list holds exactly the user's stored (targeted id, hash) pairs |
| Consents.SaveConsent | lib/Controller/ConsentAdmin.php:236-238 | Upsert: afterwards the user's only consent for the targeted id has the new hash, it is the user's last pair, no other row is lost, and no row other than the new one is added |
| Consents.DeleteConsent | lib/Controller/ConsentAdmin.php:240-243 | Afterwards the user has no consent for the targeted id; every other row keeps its multiplicity and no row is added, so the count is the number of rows removed |
| Action.Dispatch | lib/Controller/ConsentAdmin.php:236-248 | `"true"` saves and returns the save's answer; `"false"` deletes and returns `false`; any other value makes no store call and returns null |
| ConsentAdmin.Prepare | lib/Controller/ConsentAdmin.php:160-210 | Fails only when the user id is missing; otherwise fixes source, user id, hashed user id and the list of enabled SPs, and the chain context carries the given collaborators, the hosted IdP metadata, `attributes.hash` and `attributes.exclude` |
| ConsentAdmin.ApplyAction | lib/Controller/ConsentAdmin.php:213-251 | Succeeds exactly when the SP's metadata is found and its chain runs on the session's attributes; the action page's store and `isStored` are dispatch applied to the targeted id and hash recomputed from those attributes |
| ConsentAdmin.ShowListing | lib/Controller/ConsentAdmin.php:253-336 | Only reads the store; succeeds exactly when every SP is found and every threaded chain run succeeds; one row per enabled SP in order, keyed by its entity id, each describing its SP with the status of the folded stored consents and holding the set released to it from the previous SP's release (the first from the session's attributes) |
| ConsentAdmin.StoredConsents | lib/Controller/ConsentAdmin.php:253-260 | Every consent in the map is a row of the user's in the store, and every targeted id the user has a row for is in the map |
| ConsentAdmin.ShowListingCorrected | lib/Controller/ConsentAdmin.php:253-336 | The corrected listing view: only reads the store; succeeds exactly when every SP is found and its chain runs on the session's attributes; each row describes its SP and is released from those attributes |
| ConsentAdmin.Serve | lib/Controller/ConsentAdmin.php:128-337 | A missing user id aborts before anything else; an action runs iff both `action` and `cv` are given; it fails otherwise only when an SP's metadata is missing or a chain fails; an unknown action changes nothing; a listing leaves the store alone, shows exactly the enabled SPs, each row carries the status of the stored consents and holds the threaded release of lines 274-279 |
| ConsentAdmin.ServeSplits | lib/Controller/ConsentAdmin.php:212-213 | Once the user is known, `main` is the action view exactly when both `action` and `cv` are given, and the listing view otherwise |
| ConsentAdmin.ServeCorrected | lib/Controller/ConsentAdmin.php:253-336 | `main` with the corrected listing loop: for an action the same result as `Serve`; a listing succeeds exactly when every SP's chain runs on the session's attributes, and each row describes its SP and is released from those attributes |
| RoundTrips.RevokeThenListNone | lib/Controller/ConsentAdmin.php:240-298 | After `action=false` for an SP, the next listing of the same page shows that SP as `none`, wherever it is listed |
| RoundTrips.GrantThenListFirstOk | lib/Controller/ConsentAdmin.php:225-298 | As written, after `action=true` the next listing shows the SP as `ok` when it is the first SP listed |
| RoundTrips.GrantThenListOk | lib/Controller/ConsentAdmin.php:225-298 | With the corrected loop, after `action=true` the next listing shows that SP as `ok` wherever it is listed |
| RoundTrips.GrantThenListChangedAsWritten | lib/Controller/ConsentAdmin.php:269-283 | As written, a concrete two-SP setup where `action=true` for the second SP is followed by a listing that shows it as `changed` |

## Left out

- Authentication (`requireAuth`), logout and the return URL (lines 134-146) are session and redirect plumbing. The session's attributes and `saml:sp:IdP` are inputs.
- The passive processing chain is a function from the chain state to attributes or a failure. Its filters, and how it skips interactive filters, live in another package.
- `getHashedUserID`, `getTargetedID` and `getAttributeHash` are arbitrary deterministic functions. Their salted SHA hashing and their canonical attribute serialization are foreign code.
- The consent store's database (`parseStoreConfig`, line 207) is a table of rows. The modelled `saveConsent` always answers `true`, as the test doubles do, so whether a real store answers `false` on update is not modelled.
- Template rendering, translation, `Logger` calls and configuration loading are left out. `showDescription` is passed through to the page unchanged.
- The hooks (`hooks/hook_configpage.php`, `hooks/hook_frontpage.php`) only add a link to the admin pages.
- PHP loose comparison is modelled as plain string equality. This covers `==` on hashes (line 290), on the action (lines 237, 240) and `in_array` (line 398). Numeric-string keys, which PHP turns into integers, are modelled as plain string keys: in `array_key_exists` (line 198), in the keys of `getList`'s array, where an integer entity id would then reach the `string` parameters under `strict_types` (lines 3, 269, 358), and in the consent map (lines 259, 286).
- Attribute sets are unordered maps, while PHP arrays are ordered. The hash is abstract over the map, so key order cannot affect it here.
- Attribute values are lists of strings. A session attribute whose value is a bare string, which PHP would index character by character at line 185, is not modelled.
- Metadata values are null, strings, scalars (with their string form) and arrays of strings. Entries of `consent.disable` that are not strings are not modelled. An array entry, such as a regex rule, makes `array_key_exists` throw a TypeError at line 198; an integer entry is looked up as an integer key.
- Failures of `getMetaDataCurrentEntityID` and of the hosted IdP's `getMetaData` (lines 157-158) are not modelled. Their results are inputs.
- Identity.Source: carries no contract of its own. Its properties are stated by Identity.BridgedAndLocalDistinct, Release.BridgedSourceRoundTrip and Release.LocalSourceNotBridged.

## Findings

| source | as written | input that shows it | evidently intended | confidence | as-written member | corrected member |
|---|---|---|---|---|---|---|
| lib/Controller/ConsentAdmin.php:274-283 | The listing reassigns `$attributes` to each SP's released set, so every later SP's chain runs on the previous SP's release instead of the session's attributes | Session has `cn` and `mail`; `sp1` is released only `cn`, `sp2` only `mail`, listed in that order; `action=true&cv=sp2` stores the hash with `mail`, then the listing hashes `sp2`'s release from `{cn}` and shows `changed` | Every SP's chain starts from the session's attributes, as the action path (lines 225-234) does, so a consent just saved lists as `ok` | medium, not executed | RoundTrips.GrantThenListChangedAsWritten | RoundTrips.GrantThenListOk |

=== FILE: action.dfy ===
/** The checkbox action: `action=true` saves consent for the service
    provider named by `cv`, `action=false` removes it. */
module Action {
  import opened Wrappers
  import opened Consents

  /** Dispatch on the action value. The result is the new store and the
      page's `isStored`: the save's answer for `"true"`, `false` for
      `"false"` whatever the delete reports, and null, with no store call,
      for anything else. */
  function Dispatch(action: string, store: ConsentStore, hashedUserId: string, targetedId: string, attributeHash: string)
    : (r: (ConsentStore, Option<bool>))
    ensures action == "true" ==>
      var saved := SaveConsent(store, hashedUserId, targetedId, attributeHash);
      r.0 == saved.0 && r.1 == Some(saved.1) && r.1 == Some(true)
    ensures action == "true" ==>
      var mine := GetConsents(r.0, hashedUserId);
      |mine| > 0 && mine[|mine| - 1] == (targetedId, attributeHash)
    ensures action == "false" ==>
      r.0 == DeleteConsent(store, hashedUserId, targetedId).0 && r.1 == Some(false)
    ensures action == "false" ==>
      forall row :: row in r.0 ==> !(row.hashedUserId == hashedUserId && row.targetedId == targetedId)
    ensures action != "true" && action != "false" ==> r.0 == store && r.1 == None
  {
    if action == "true" then
      var (store', stored) := SaveConsent(store, hashedUserId, targetedId, attributeHash);
      (store', Some(stored))
    else if action == "false" then
      var (store', _) := DeleteConsent(store, hashedUserId, targetedId);
      (store', Some(false))
    else
      (store, None)
  }
}

=== FILE: consent_admin.dfy ===
/** The consent administration page: resolve who the user is, then either
    apply a checkbox action or list every service provider with its
    consent status. */
module ConsentAdmin {
  import opened Wrappers
  import opened Types
  import opened Identity
  import opened Release
  import opened Consents
  import opened Listing
  import opened Action

  /** The query parameters `cv` and `action`. */
  datatype Request = Request(cv: Option<string>, action: Option<string>)

  /** The module configuration the page reads. */
  datatype ModuleConfig = ModuleConfig(
    hashAttributes: bool,           // `attributes.hash`
    excludeAttributes: seq<string>, // `attributes.exclude`
    showDescription: MetaValue)     // `showDescription`, passed to the page

  /** What the framework tells the page about this request. */
  datatype Environment = Environment(
    attributes: Attributes,        // the session's attributes
    bridgedIdp: Option<string>,    // auth data `saml:sp:IdP`
    idpEntityId: string,           // the hosted IdP
    idpMetadata: Metadata,         // the hosted IdP's metadata
    spList: SpList,                // `getList('saml20-sp-remote')`
    spMetadata: MetadataLookup)    // `getMetaData(..., 'saml20-sp-remote')`

  datatype Page =
    | ActionPage(isStored: Option<bool>)
    | ListingPage(entries: seq<(string, SpEntry)>, showDescription: MetaValue)

  datatype Response = Response(page: Page, store: ConsentStore)

  /** What both views share once the user is known. */
  datatype Prepared = Prepared(cc: ChainContext, hashedUserId: string, sps: SpList)

  predicate UserIdMissing(env: Environment) {
    var name := UserIdAttributeName(env.idpMetadata);
    name !in env.attributes || |env.attributes[name]| == 0
  }

  /** The common prefix of the page: source, user id, the SP list without
      the consent-disabled SPs, and the hashed user id. */
  function Prepare(c: Collaborators, env: Environment, cfg: ModuleConfig): (r: Result<Prepared, Error>)
    ensures r.Failure? <==> UserIdMissing(env)
    ensures r.Failure? ==> r.error == MissingUserId(UserIdAttributeName(env.idpMetadata))
    ensures r.Success? ==> r.value.sps == KeepEnabled(env.spList, DisabledIds(env.idpMetadata))
    ensures r.Success? ==>
      r.value.cc.source == Source(env.bridgedIdp, env.idpMetadata, env.idpEntityId)
      && r.value.cc.userId == env.attributes[UserIdAttributeName(env.idpMetadata)][0]
      && r.value.hashedUserId == c.hashedUserId(r.value.cc.userId, r.value.cc.source)
    ensures r.Success? ==>
      r.value.cc == ChainContext(c, env.idpMetadata, r.value.cc.source, r.value.cc.userId,
                                 cfg.hashAttributes, cfg.excludeAttributes)
  {
    var source := Source(env.bridgedIdp, env.idpMetadata, env.idpEntityId);
    var userId :- ResolveUserId(env.attributes, UserIdAttributeName(env.idpMetadata));
    var sps := RemoveDisabled(env.spList, DisabledIds(env.idpMetadata));
    var cc := ChainContext(c, env.idpMetadata, source, userId, cfg.hashAttributes, cfg.excludeAttributes);
    Success(Prepared(cc, c.hashedUserId(userId, source), sps))
  }

  /** The action view: recompute the SP's targeted id and attribute hash
      from the session's attributes, then dispatch. */
  function ApplyAction(p: Prepared, env: Environment, spEntityId: string, action: string, store: ConsentStore)
    : (r: Result<Response, Error>)
    ensures r.Success? <==>
      env.spMetadata(spEntityId).Some? && ReleaseTo(p.cc, env.spMetadata(spEntityId).value, env.attributes).Success?
    ensures r.Failure? ==> r.error.MetadataNotFound? || r.error.ChainFailed?
    ensures r.Success? ==> r.value.page.ActionPage?
    ensures r.Success? ==>
      DriveProcessingChain(p.cc, env.spMetadata(spEntityId).value, spEntityId, env.attributes).Success?
    ensures r.Success? ==> (
      var released := DriveProcessingChain(p.cc, env.spMetadata(spEntityId).value, spEntityId, env.attributes).value;
      (r.value.store, r.value.page.isStored)
        == Dispatch(action, store, p.hashedUserId, released.targetedId, released.attributeHash))
  {
    var spMetadata :- GetMetaData(env.spMetadata, spEntityId);
    var released :- DriveProcessingChain(p.cc, spMetadata, spEntityId, env.attributes);
    var (store', isStored) := Dispatch(action, store, p.hashedUserId, released.targetedId, released.attributeHash);
    Success(Response(ActionPage(isStored), store'))
  }

  /** The consents stored for the user, as the listing looks them up. */
  function StoredConsents(p: Prepared, store: ConsentStore): (m: map<string, string>)
    ensures forall tid :: tid in m ==> ConsentRow(p.hashedUserId, tid, m[tid]) in store
    ensures forall row :: row in store && row.hashedUserId == p.hashedUserId ==> row.targetedId in m
  {
    var list := GetConsents(store, p.hashedUserId);
    var m := FoldConsents(list);
    FoldEntriesFromList(list);
    assert forall row :: row in store && row.hashedUserId == p.hashedUserId ==>
      (row.targetedId, row.attributeHash) in list;
    m
  }

  /** The listing view as written: each SP in order, keyed by its entity
      id; the store is only read. */
  function ShowListing(p: Prepared, env: Environment, cfg: ModuleConfig, store: ConsentStore)
    : (r: Result<Response, Error>)
    ensures r.Failure? ==> r.error.MetadataNotFound? || r.error.ChainFailed?
    ensures r.Success? ==> r.value.page.ListingPage? && r.value.store == store
    ensures r.Success? ==> r.value.page.showDescription == cfg.showDescription
    ensures r.Success? ==> |r.value.page.entries| == |p.sps|
    ensures r.Success? ==> forall i :: 0 <= i < |p.sps| ==>
      r.value.page.entries[i].0 == p.sps[i].0
      && Describes(p.cc, env.spMetadata, StoredConsents(p, store), p.sps[i], r.value.page.entries[i].1)
    ensures r.Success? ==> RowsThreaded(p.cc, env.spMetadata, p.sps, r.value.page.entries, env.attributes)
    ensures r.Success? <==> ThreadedRuns(p.cc, env.spMetadata, p.sps, env.attributes)
  {
    ListAsWrittenSucceeds(p.cc, env.spMetadata, StoredConsents(p, store), p.sps, env.attributes);
    var entries :- ListAsWritten(p.cc, env.spMetadata, StoredConsents(p, store), p.sps, env.attributes);
    RowsDescribeAt(p.cc, env.spMetadata, StoredConsents(p, store), p.sps, entries);
    Success(Response(ListingPage(entries, cfg.showDescription), store))
  }

  /** The listing view with fresh attributes for every SP. */
  function ShowListingCorrected(p: Prepared, env: Environment, cfg: ModuleConfig, store: ConsentStore)
    : (r: Result<Response, Error>)
    ensures r.Failure? ==> r.error.MetadataNotFound? || r.error.ChainFailed?
    ensures r.Success? ==> r.value.page.ListingPage? && r.value.store == store
    ensures r.Success? ==> r.value.page.showDescription == cfg.showDescription
    ensures r.Success? ==> |r.value.page.entries| == |p.sps|
    ensures r.Success? ==> forall i :: 0 <= i < |p.sps| ==>
      r.value.page.entries[i].0 == p.sps[i].0
      && Describes(p.cc, env.spMetadata, StoredConsents(p, store), p.sps[i], r.value.page.entries[i].1)
      && ReleasedFrom(p.cc, env.spMetadata, p.sps[i], env.attributes, r.value.page.entries[i].1)
    ensures r.Success? <==> FreshRuns(p.cc, env.spMetadata, p.sps, env.attributes)
  {
    ListFreshSucceeds(p.cc, env.spMetadata, StoredConsents(p, store), p.sps, env.attributes);
    var entries :- ListFresh(p.cc, env.spMetadata, StoredConsents(p, store), p.sps, env.attributes);
    RowsDescribeAt(p.cc, env.spMetadata, StoredConsents(p, store), p.sps, entries);
    RowsFreshAt(p.cc, env.spMetadata, p.sps, entries, env.attributes);
    Success(Response(ListingPage(entries, cfg.showDescription), store))
  }

  /** `main` as written: an action when both `action` and `cv` are given,
      the listing otherwise. Only the action view changes the store. */
  function Serve(c: Collaborators, env: Environment, cfg: ModuleConfig, req: Request, store: ConsentStore)
    : (r: Result<Response, Error>)
    ensures UserIdMissing(env) ==> r == Failure(MissingUserId(UserIdAttributeName(env.idpMetadata)))
    ensures !UserIdMissing(env) ==> !(r.Failure? && r.error.MissingUserId?)
    ensures r.Success? ==> (r.value.page.ActionPage? <==> req.action.Some? && req.cv.Some?)
    ensures r.Success? && r.value.page.ActionPage? && req.action.value != "true" && req.action.value != "false" ==>
      r.value.store == store && r.value.page.isStored == None
    ensures r.Success? && r.value.page.ListingPage? ==>
      var sps := KeepEnabled(env.spList, DisabledIds(env.idpMetadata));
      && r.value.store == store
      && r.value.page.showDescription == cfg.showDescription
      && |r.value.page.entries| == |sps|
      && forall i :: 0 <= i < |sps| ==>
           && r.value.page.entries[i].0 == sps[i].0
           && r.value.page.entries[i].1.consentValue == sps[i].0
           && r.value.page.entries[i].0 !in DisabledIds(env.idpMetadata)
    ensures !UserIdMissing(env) ==>
      var p := Prepare(c, env, cfg).value;
      r.Success? <==>
        if req.action.Some? && req.cv.Some? then
          env.spMetadata(req.cv.value).Some?
          && ReleaseTo(p.cc, env.spMetadata(req.cv.value).value, env.attributes).Success?
        else
          ThreadedRuns(p.cc, env.spMetadata, p.sps, env.attributes)
    ensures r.Success? && r.value.page.ListingPage? ==>
      var p := Prepare(c, env, cfg).value;
      forall i :: 0 <= i < |p.sps| ==>
        Describes(p.cc, env.spMetadata, StoredConsents(p, store), p.sps[i], r.value.page.entries[i].1)
    ensures r.Success? && r.value.page.ListingPage? ==>
      var p := Prepare(c, env, cfg).value;
      RowsThreaded(p.cc, env.spMetadata, p.sps, r.value.page.entries, env.attributes)
  {
    var p :- Prepare(c, env, cfg);
    if req.action.Some? && req.cv.Some? then
      ApplyAction(p, env, req.cv.value, req.action.value, store)
    else
      ShowListing(p, env, cfg, store)
  }

  /** Once the user is known, `main` is the action view when both `action`
      and `cv` are given and the listing view otherwise. */
  lemma ServeSplits(c: Collaborators, env: Environment, cfg: ModuleConfig, req: Request, store: ConsentStore,
                    p: Prepared)
    requires Prepare(c, env, cfg) == Success(p)
    ensures req.action.Some? && req.cv.Some? ==>
      Serve(c, env, cfg, req, store) == ApplyAction(p, env, req.cv.value, req.action.value, store)
    ensures !(req.action.Some? && req.cv.Some?) ==> Serve(c, env, cfg, req, store) == ShowListing(p, env, cfg, store)
  {
  }

  /** `main` with the listing computed from fresh attributes for every SP. */
  function ServeCorrected(c: Collaborators, env: Environment, cfg: ModuleConfig, req: Request, store: ConsentStore)
    : (r: Result<Response, Error>)
    ensures UserIdMissing(env) ==> r == Failure(MissingUserId(UserIdAttributeName(env.idpMetadata)))
    ensures r.Success? ==> (r.value.page.ActionPage? <==> req.action.Some? && req.cv.Some?)
    ensures r.Success? && r.value.page.ListingPage? ==>
      var sps := KeepEnabled(env.spList, DisabledIds(env.idpMetadata));
      && r.value.store == store
      && |r.value.page.entries| == |sps|
      && forall i :: 0 <= i < |sps| ==> r.value.page.entries[i].0 == sps[i].0
    ensures req.action.Some? && req.cv.Some? ==> r == Serve(c, env, cfg, req, store)
    ensures !UserIdMissing(env) && !(req.action.Some? && req.cv.Some?) ==>
      var p := Prepare(c, env, cfg).value;
      r.Success? <==> FreshRuns(p.cc, env.spMetadata, p.sps, env.attributes)
    ensures r.Success? && r.value.page.ListingPage? ==>
      var p := Prepare(c, env, cfg).value;
      forall i :: 0 <= i < |p.sps| ==>
        && Describes(p.cc, env.spMetadata, StoredConsents(p, store), p.sps[i], r.value.page.entries[i].1)
        && ReleasedFrom(p.cc, env.spMetadata, p.sps[i], env.attributes, r.value.page.entries[i].1)
  {
    var p :- Prepare(c, env, cfg);
    if req.action.Some? && req.cv.Some? then
      ApplyAction(p, env, req.cv.value, req.action.value, store)
    else
      ShowListingCorrected(p, env, cfg, store)
  }
}

=== FILE: consents.dfy ===
/** Stored consents: folding the store's list into a lookup map, the
    three-way status, and the consent store itself (an upsert table). */
module Consents {
  import opened Wrappers

  /** The listing's `$user_consent`: each stored (targeted id, attribute
      hash) pair is written into the map in list order. */
  function FoldConsents(list: seq<(string, string)>): (m: map<string, string>)
    ensures m.Keys == set i | 0 <= i < |list| :: list[i].0
    ensures forall i :: 0 <= i < |list| && LastFor(list, i) ==> m[list[i].0] == list[i].1
  {
    if |list| == 0 then map[]
    else
      var init := list[..|list| - 1];
      var m0 := FoldConsents(init);
      var r := m0[list[|list| - 1].0 := list[|list| - 1].1];
      assert forall i :: 0 <= i < |init| ==> init[i] == list[i];
      assert forall i :: 0 <= i < |list| && LastFor(list, i) && i < |init| ==> LastFor(init, i);
      r
  }

  /** Every entry of the folded map is a pair of the list. */
  lemma {:induction false} FoldEntriesFromList(list: seq<(string, string)>)
    ensures forall k :: k in FoldConsents(list) ==> (k, FoldConsents(list)[k]) in list
  {
    if |list| > 0 {
      var init := list[..|list| - 1];
      FoldEntriesFromList(init);
      assert list == init + [list[|list| - 1]];
    }
  }

  /** The map has no more entries than the list has pairs. */
  lemma {:induction false} FoldSize(list: seq<(string, string)>)
    ensures |FoldConsents(list)| <= |list|
  {
    if |list| > 0 {
      FoldSize(list[..|list| - 1]);
    }
  }

  /** The pair at `i` is the last one with its targeted id. */
  ghost predicate LastFor(list: seq<(string, string)>, i: int)
    requires 0 <= i < |list|
  {
    forall j :: i < j < |list| ==> list[j].0 != list[i].0
  }

  /** Consent status of one service provider: the page shows it as `none`,
      `changed` or `ok`. */
  datatype ConsentStatus = StatusNone | StatusChanged | StatusOk

  /** `none` when no consent is stored for the targeted id, `ok` when the
      stored hash equals the computed one, `changed` when it differs. */
  function Classify(consents: map<string, string>, targetedId: string, attributeHash: string): (s: ConsentStatus)
    ensures s == StatusNone <==> targetedId !in consents
    ensures s == StatusOk <==> targetedId in consents && consents[targetedId] == attributeHash
    ensures s == StatusChanged <==> targetedId in consents && consents[targetedId] != attributeHash
  {
    if targetedId in consents then
      if consents[targetedId] == attributeHash then StatusOk else StatusChanged
    else StatusNone
  }

  /** One stored consent. */
  datatype ConsentRow = ConsentRow(hashedUserId: string, targetedId: string, attributeHash: string)

  /** The consent store: a table of rows. */
  type ConsentStore = seq<ConsentRow>

  /** `getConsents`: the user's (targeted id, attribute hash) pairs in
      table order. */
  function GetConsents(store: ConsentStore, hashedUserId: string): (r: seq<(string, string)>)
    ensures |r| <= |store|
    ensures forall p :: p in r <==> ConsentRow(hashedUserId, p.0, p.1) in store
  {
    if |store| == 0 then []
    else
      var row := store[|store| - 1];
      var init := GetConsents(store[..|store| - 1], hashedUserId);
      assert store == store[..|store| - 1] + [row];
      if row.hashedUserId == hashedUserId then init + [(row.targetedId, row.attributeHash)] else init
  }

  /** The row is the user's consent for the targeted id. */
  predicate IsConsentOf(row: ConsentRow, hashedUserId: string, targetedId: string) {
    row.hashedUserId == hashedUserId && row.targetedId == targetedId
  }

  /** The table without the user's rows for one targeted id. */
  function WithoutConsent(store: ConsentStore, hashedUserId: string, targetedId: string): (r: ConsentStore)
    ensures forall row :: row in r <==> row in store && !(row.hashedUserId == hashedUserId && row.targetedId == targetedId)
    ensures |r| <= |store|
    ensures forall row :: multiset(r)[row] == if IsConsentOf(row, hashedUserId, targetedId) then 0 else multiset(store)[row]
  {
    if |store| == 0 then []
    else
      var row := store[|store| - 1];
      var init := WithoutConsent(store[..|store| - 1], hashedUserId, targetedId);
      assert store == store[..|store| - 1] + [row];
      assert multiset(store) == multiset(store[..|store| - 1]) + multiset{row};
      if row.hashedUserId == hashedUserId && row.targetedId == targetedId then init else init + [row]
  }

  /** `saveConsent` as an upsert: any earlier consent of the user for the
      targeted id is replaced by the new hash. Answers `true`. */
  function SaveConsent(store: ConsentStore, hashedUserId: string, targetedId: string, attributeHash: string)
    : (r: (ConsentStore, bool))
    ensures r.1
    ensures var mine := GetConsents(r.0, hashedUserId);
      |mine| > 0 && mine[|mine| - 1] == (targetedId, attributeHash)
    ensures forall row :: row in r.0 && row.hashedUserId == hashedUserId && row.targetedId == targetedId
                          ==> row.attributeHash == attributeHash
    ensures forall row :: row in store && !(row.hashedUserId == hashedUserId && row.targetedId == targetedId)
                          ==> row in r.0
    ensures forall row :: row in r.0 ==> row in store || row == ConsentRow(hashedUserId, targetedId, attributeHash)
  {
    var rest := WithoutConsent(store, hashedUserId, targetedId);
    var r := rest + [ConsentRow(hashedUserId, targetedId, attributeHash)];
    assert r[..|r| - 1] == rest;
    assert GetConsents(r, hashedUserId) == GetConsents(rest, hashedUserId) + [(targetedId, attributeHash)];
    (r, true)
  }

  /** `deleteConsent`: removes the user's rows for the targeted id and
      reports how many were removed. */
  function DeleteConsent(store: ConsentStore, hashedUserId: string, targetedId: string): (r: (ConsentStore, nat))
    ensures forall row :: row in r.0 ==> !(row.hashedUserId == hashedUserId && row.targetedId == targetedId)
    ensures forall row :: row in store && !(row.hashedUserId == hashedUserId && row.targetedId == targetedId)
                          ==> row in r.0
    ensures forall row :: row in r.0 ==> row in store
    ensures forall row :: multiset(r.0)[row] == if IsConsentOf(row, hashedUserId, targetedId) then 0 else multiset(store)[row]
    ensures r.1 == |store| - |r.0|
  {
    var rest := WithoutConsent(store, hashedUserId, targetedId);
    (rest, |store| - |rest|)
  }

  /** A listing right after a save finds the saved hash: the user's last
      stored pair wins the fold. */
  lemma LastPairWins(list: seq<(string, string)>)
    requires |list| > 0
    ensures list[|list| - 1].0 in FoldConsents(list)
    ensures FoldConsents(list)[list[|list| - 1].0] == list[|list| - 1].1
  {
  }

  /** A user with no row for a targeted id has no consent for it. */
  lemma {:induction false} NoRowNoConsent(store: ConsentStore, hashedUserId: string, targetedId: string)
    requires forall row :: row in store ==> !(row.hashedUserId == hashedUserId && row.targetedId == targetedId)
    ensures targetedId !in FoldConsents(GetConsents(store, hashedUserId))
  {
    var list := GetConsents(store, hashedUserId);
    forall i | 0 <= i < |list|
      ensures list[i].0 != targetedId
    {
      assert list[i] in list;
      assert ConsentRow(hashedUserId, list[i].0, list[i].1) in store;
    }
  }
}

=== FILE: identity.dfy ===
/** Who the user is, for consent purposes: the identity source the user
    came through and the value of the user-identifying attribute. */
module Identity {
  import opened Wrappers
  import opened Types
  import Strings

  /** The metadata set of a remote IdP, used when this IdP acts as a bridge. */
  const RemoteIdpSet := "saml20-idp-remote"

  /** The user-id attribute when the hosted IdP's metadata names none. */
  const DefaultUserIdAttribute := "eduPersonPrincipalName"

  /** The `source` string: `saml20-idp-remote|<remote idp>` when the user
      was authenticated through a remote IdP (`saml:sp:IdP` is set), else
      `<metadata-set>|<hosted idp entity id>`. */
  function Source(bridgedIdp: Option<string>, idpMetadata: Metadata, idpEntityId: string): (source: string)
  {
    match bridgedIdp
    case Some(idp) => RemoteIdpSet + "|" + idp
    case None => ToText(Get(idpMetadata, "metadata-set")) + "|" + idpEntityId
  }

  /** A bridged source and a local one never coincide unless the hosted
      IdP's metadata set is itself the remote set name, so consent records
      of the two kinds of login are kept apart. */
  lemma BridgedAndLocalDistinct(idp: string, idpMetadata: Metadata, idpEntityId: string)
    requires '|' !in ToText(Get(idpMetadata, "metadata-set"))
    requires ToText(Get(idpMetadata, "metadata-set")) != RemoteIdpSet
    ensures Source(Some(idp), idpMetadata, idpEntityId) != Source(None, idpMetadata, idpEntityId)
  {
    var set' := ToText(Get(idpMetadata, "metadata-set"));
    if RemoteIdpSet + "|" + idp == set' + "|" + idpEntityId {
      Strings.SplitAtFirst(RemoteIdpSet, idp, set', idpEntityId, '|');
    }
  }

  /** The name of the attribute identifying the user: the hosted IdP's
      `userid.attribute` when that is a string, `eduPersonPrincipalName`
      otherwise (missing, null, or not a string). */
  function UserIdAttributeName(idpMetadata: Metadata): (name: string)
    ensures IsSet(idpMetadata, "userid.attribute") && idpMetadata["userid.attribute"].MStr? ==>
      name == idpMetadata["userid.attribute"].s
    ensures !(IsSet(idpMetadata, "userid.attribute") && idpMetadata["userid.attribute"].MStr?) ==>
      name == DefaultUserIdAttribute
  {
    match Get(idpMetadata, "userid.attribute")
    case MStr(s) => s
    case _ => DefaultUserIdAttribute
  }

  /** The user id: the first value of the user-id attribute. A missing
      attribute or an empty value list aborts with `MissingUserId`. */
  function ResolveUserId(attributes: Attributes, name: string): (r: Result<string, Error>)
    ensures r.Failure? <==> name !in attributes || |attributes[name]| == 0
    ensures r.Failure? ==> r.error == MissingUserId(name)
    ensures r.Success? ==> r.value in attributes[name] && r.value == attributes[name][0]
  {
    if name in attributes && |attributes[name]| > 0 then Success(attributes[name][0])
    else Failure(MissingUserId(name))
  }
}

=== FILE: listing.dfy ===
/** The listing view: which service providers are shown, how each is
    displayed, and its consent status. */
module Listing {
  import opened Wrappers
  import opened Types
  import opened Release
  import opened Consents

  /** The SP list from `getList`: entity id and list record, in listing order. */
  type SpList = seq<(string, Metadata)>

  /** The entity ids of the hosted IdP's `consent.disable`. Anything but an
      array is not iterated. */
  function DisabledIds(idpMetadata: Metadata): (ids: seq<string>)
    ensures Get(idpMetadata, "consent.disable").MArr? ==>
      |ids| == |idpMetadata["consent.disable"].items|
      && forall i :: 0 <= i < |ids| ==> ids[i] == idpMetadata["consent.disable"].items[i].1
    ensures !Get(idpMetadata, "consent.disable").MArr? ==> ids == []
  {
    match Get(idpMetadata, "consent.disable")
    case MArr(items) => seq(|items|, i requires 0 <= i < |items| => items[i].1)
    case _ => []
  }

  /** `unset($all_sp_metadata[$key])` when the key is present. */
  function RemoveKey(sps: SpList, key: string): (r: SpList)
    ensures forall sp :: sp in r <==> sp in sps && sp.0 != key
    ensures (forall i :: 0 <= i < |sps| ==> sps[i].0 != key) ==> r == sps
  {
    if |sps| == 0 then []
    else if sps[0].0 == key then RemoveKey(sps[1..], key)
    else [sps[0]] + RemoveKey(sps[1..], key)
  }

  /** The SPs whose entity id is not disabled, in their original order. */
  function KeepEnabled(sps: SpList, disabled: seq<string>): (r: SpList)
    ensures forall sp :: sp in r <==> sp in sps && sp.0 !in disabled
    ensures |r| <= |sps|
  {
    if |sps| == 0 then []
    else if sps[0].0 in disabled then KeepEnabled(sps[1..], disabled)
    else [sps[0]] + KeepEnabled(sps[1..], disabled)
  }

  /** The removal loop: one `unset` per disabled id, in configuration order.
      It leaves exactly the enabled SPs in their original order. */
  function RemoveDisabled(sps: SpList, disabled: seq<string>): (r: SpList)
    ensures r == KeepEnabled(sps, disabled)
    decreases |disabled|
  {
    if |disabled| == 0 then
      KeepNothingDisabled(sps);
      sps
    else
      KeepAfterRemove(sps, disabled[0], disabled[1..]);
      assert [disabled[0]] + disabled[1..] == disabled;
      RemoveDisabled(RemoveKey(sps, disabled[0]), disabled[1..])
  }

  lemma {:induction false} KeepNothingDisabled(sps: SpList)
    ensures KeepEnabled(sps, []) == sps
  {
    if |sps| > 0 {
      KeepNothingDisabled(sps[1..]);
      assert [sps[0]] + sps[1..] == sps;
    }
  }

  lemma {:induction false} KeepAfterRemove(sps: SpList, key: string, rest: seq<string>)
    ensures KeepEnabled(RemoveKey(sps, key), rest) == KeepEnabled(sps, [key] + rest)
  {
    if |sps| > 0 {
      KeepAfterRemove(sps[1..], key, rest);
      if sps[0].0 != key {
        assert ([sps[0]] + RemoveKey(sps[1..], key))[1..] == RemoveKey(sps[1..], key);
      }
    }
  }

  /** The list record has a `name` that is an array or a string. */
  predicate ListedName(listRecord: Metadata) {
    IsSet(listRecord, "name") && (listRecord["name"].MArr? || listRecord["name"].MStr?)
  }

  /** The list record has an `OrganizationDisplayName` that is an array. */
  predicate ListedOrganizationName(listRecord: Metadata) {
    IsSet(listRecord, "OrganizationDisplayName") && listRecord["OrganizationDisplayName"].MArr?
  }

  /** The display name: the metadata's `name` when the list record has a
      `name` that is an array or a string; else the metadata's
      `OrganizationDisplayName` when the list record has one that is an
      array; else the entity id. The tests look at the list record, the
      value comes from the metadata record. */
  function DisplayName(listRecord: Metadata, spMetadata: Metadata, spEntityId: string): (name: MetaValue)
    ensures ListedName(listRecord) ==> name == Get(spMetadata, "name")
    ensures !ListedName(listRecord) && ListedOrganizationName(listRecord) ==>
      name == Get(spMetadata, "OrganizationDisplayName")
    ensures !ListedName(listRecord) && !ListedOrganizationName(listRecord) ==> name == MStr(spEntityId)
  {
    var listName := Get(listRecord, "name");
    if listName.MArr? || listName.MStr? then Get(spMetadata, "name")
    else if Get(listRecord, "OrganizationDisplayName").MArr? then Get(spMetadata, "OrganizationDisplayName")
    else MStr(spEntityId)
  }

  /** The description: only a non-empty array counts; anything else is null. */
  function Description(spMetadata: Metadata): (d: Option<seq<(string, string)>>)
    ensures d.Some? <==> Get(spMetadata, "description").MArr? && |spMetadata["description"].items| > 0
    ensures d.Some? ==> d.value == spMetadata["description"].items
  {
    match Get(spMetadata, "description")
    case MArr(items) => if |items| > 0 then Some(items) else None
    case _ => None
  }

  /** The service URL when the metadata sets `ServiceURL`, else null. */
  function ServiceUrl(spMetadata: Metadata): (u: Option<MetaValue>)
    ensures u.Some? <==> IsSet(spMetadata, "ServiceURL")
    ensures u.Some? ==> u.value == spMetadata["ServiceURL"] && !u.value.MNull?
  {
    if IsSet(spMetadata, "ServiceURL") then Some(spMetadata["ServiceURL"]) else None
  }

  /** One row of `$sp_list`. */
  datatype SpEntry = SpEntry(
    spEntityId: string,
    name: MetaValue,
    description: Option<seq<(string, string)>>,
    consentStatus: ConsentStatus,
    consentValue: string,
    attributesBySp: Attributes,
    serviceUrl: Option<MetaValue>)

  /** The row built for one SP from its chain result. */
  function MakeEntry(cc: ChainContext, consents: map<string, string>, sp: (string, Metadata),
                     spMetadata: Metadata, released: Released): (e: SpEntry)
    ensures e.spEntityId == sp.0 && e.consentValue == sp.0
    ensures e.attributesBySp == released.attributes
    ensures e.consentStatus == Classify(consents, released.targetedId, released.attributeHash)
    ensures e.name == DisplayName(sp.1, spMetadata, sp.0)
    ensures e.description == Description(spMetadata) && e.serviceUrl == ServiceUrl(spMetadata)
  {
    SpEntry(
      sp.0,
      DisplayName(sp.1, spMetadata, sp.0),
      Description(spMetadata),
      Classify(consents, released.targetedId, released.attributeHash),
      sp.0,
      released.attributes,
      ServiceUrl(spMetadata))
  }

  /** What a row says about its SP, whatever attributes it was computed
      from: it is keyed and valued by the entity id, its status compares
      the stored consent for the SP's targeted id with the hash of the
      row's own attributes, and its display fields come from the SP's
      metadata. */
  predicate Describes(cc: ChainContext, lookup: MetadataLookup, consents: map<string, string>,
                      sp: (string, Metadata), entry: SpEntry)
  {
    && lookup(sp.0).Some?
    && var spMetadata := lookup(sp.0).value;
    && entry.spEntityId == sp.0
    && entry.consentValue == sp.0
    && entry.consentStatus == Classify(consents, TargetedIdFor(cc, spMetadata, sp.0),
                                       cc.collaborators.attributeHash(entry.attributesBySp, cc.hashAttributes))
    && entry.name == DisplayName(sp.1, spMetadata, sp.0)
    && entry.description == Description(spMetadata)
    && entry.serviceUrl == ServiceUrl(spMetadata)
  }

  /** The row's attributes are what the SP is released from `input`. */
  predicate ReleasedFrom(cc: ChainContext, lookup: MetadataLookup, sp: (string, Metadata),
                         input: Attributes, entry: SpEntry)
  {
    lookup(sp.0).Some? && ReleaseTo(cc, lookup(sp.0).value, input) == Success(entry.attributesBySp)
  }

  /** `rows` lists `sps` in order, each row keyed by its SP's entity id and
      describing that SP. */
  predicate RowsDescribe(cc: ChainContext, lookup: MetadataLookup, consents: map<string, string>,
                         sps: SpList, rows: seq<(string, SpEntry)>)
    decreases |sps|
  {
    && |rows| == |sps|
    && (|sps| == 0 ||
        (&& rows[0].0 == sps[0].0
         && Describes(cc, lookup, consents, sps[0], rows[0].1)
         && RowsDescribe(cc, lookup, consents, sps[1..], rows[1..])))
  }

  /** Each row holds what its SP is released from the set released to the
      SP before it; the first row starts from `attributes`. */
  predicate RowsThreaded(cc: ChainContext, lookup: MetadataLookup, sps: SpList,
                         rows: seq<(string, SpEntry)>, attributes: Attributes)
    decreases |sps|
  {
    && |rows| == |sps|
    && (|sps| == 0 ||
        (&& ReleasedFrom(cc, lookup, sps[0], attributes, rows[0].1)
         && RowsThreaded(cc, lookup, sps[1..], rows[1..], rows[0].1.attributesBySp)))
  }

  /** Each row holds what its SP is released from `attributes`. */
  predicate RowsFresh(cc: ChainContext, lookup: MetadataLookup, sps: SpList,
                      rows: seq<(string, SpEntry)>, attributes: Attributes)
    decreases |sps|
  {
    && |rows| == |sps|
    && (|sps| == 0 ||
        (&& ReleasedFrom(cc, lookup, sps[0], attributes, rows[0].1)
         && RowsFresh(cc, lookup, sps[1..], rows[1..], attributes)))
  }

  /** Row `i` is keyed by and describes SP `i`. */
  lemma {:induction false} RowsDescribeAt(cc: ChainContext, lookup: MetadataLookup, consents: map<string, string>,
                                          sps: SpList, rows: seq<(string, SpEntry)>)
    requires RowsDescribe(cc, lookup, consents, sps, rows)
    ensures |rows| == |sps|
    ensures forall i :: 0 <= i < |sps| ==>
      rows[i].0 == sps[i].0 && Describes(cc, lookup, consents, sps[i], rows[i].1)
    decreases |sps|
  {
    if |sps| > 0 {
      RowsDescribeAt(cc, lookup, consents, sps[1..], rows[1..]);
      assert forall i :: 0 < i < |sps| ==> rows[i] == rows[1..][i - 1] && sps[i] == sps[1..][i - 1];
    }
  }

  /** Row 0 is released from `attributes`, and row `i + 1` from the set in
      row `i`. */
  lemma {:induction false} RowsThreadedAt(cc: ChainContext, lookup: MetadataLookup, sps: SpList,
                                          rows: seq<(string, SpEntry)>, attributes: Attributes)
    requires RowsThreaded(cc, lookup, sps, rows, attributes)
    ensures |rows| == |sps|
    ensures |sps| > 0 ==> ReleasedFrom(cc, lookup, sps[0], attributes, rows[0].1)
    ensures forall i, j :: 0 <= i && j == i + 1 && j < |sps| ==>
      ReleasedFrom(cc, lookup, sps[j], rows[i].1.attributesBySp, rows[j].1)
    decreases |sps|
  {
    if |sps| > 0 {
      RowsThreadedAt(cc, lookup, sps[1..], rows[1..], rows[0].1.attributesBySp);
      assert forall i :: 0 < i < |sps| ==> rows[i] == rows[1..][i - 1] && sps[i] == sps[1..][i - 1];
    }
  }

  /** Every row is released from `attributes`. */
  lemma {:induction false} RowsFreshAt(cc: ChainContext, lookup: MetadataLookup, sps: SpList,
                                       rows: seq<(string, SpEntry)>, attributes: Attributes)
    requires RowsFresh(cc, lookup, sps, rows, attributes)
    ensures |rows| == |sps|
    ensures forall i :: 0 <= i < |sps| ==> ReleasedFrom(cc, lookup, sps[i], attributes, rows[i].1)
    decreases |sps|
  {
    if |sps| > 0 {
      RowsFreshAt(cc, lookup, sps[1..], rows[1..], attributes);
      assert forall i :: 0 < i < |sps| ==> rows[i] == rows[1..][i - 1] && sps[i] == sps[1..][i - 1];
    }
  }

  /** Every SP's metadata is found and its chain runs, each chain on the
      set released to the SP before it. */
  predicate ThreadedRuns(cc: ChainContext, lookup: MetadataLookup, sps: SpList, attributes: Attributes)
    decreases |sps|
  {
    || |sps| == 0
    || (&& lookup(sps[0].0).Some?
        && ReleaseTo(cc, lookup(sps[0].0).value, attributes).Success?
        && ThreadedRuns(cc, lookup, sps[1..], ReleaseTo(cc, lookup(sps[0].0).value, attributes).value))
  }

  /** Every SP's metadata is found and its chain runs on `attributes`. */
  predicate FreshRuns(cc: ChainContext, lookup: MetadataLookup, sps: SpList, attributes: Attributes) {
    forall i :: 0 <= i < |sps| ==>
      lookup(sps[i].0).Some? && ReleaseTo(cc, lookup(sps[i].0).value, attributes).Success?
  }

  /** A non-empty list runs fresh exactly when its head and its tail do. */
  lemma FreshRunsCons(cc: ChainContext, lookup: MetadataLookup, sps: SpList, attributes: Attributes)
    requires |sps| > 0
    ensures FreshRuns(cc, lookup, sps, attributes) <==>
      && lookup(sps[0].0).Some?
      && ReleaseTo(cc, lookup(sps[0].0).value, attributes).Success?
      && FreshRuns(cc, lookup, sps[1..], attributes)
  {
    assert forall i :: 0 < i < |sps| ==> sps[i] == sps[1..][i - 1];
  }

  /** The listing loop as the controller runs it: each SP's chain input is
      the attribute set released to the SP before it. */
  function ListAsWritten(cc: ChainContext, lookup: MetadataLookup, consents: map<string, string>,
                         sps: SpList, attributes: Attributes): (r: Result<seq<(string, SpEntry)>, Error>)
    ensures r.Failure? ==> r.error.MetadataNotFound? || r.error.ChainFailed?
    ensures r.Success? ==> RowsDescribe(cc, lookup, consents, sps, r.value)
    ensures r.Success? ==> RowsThreaded(cc, lookup, sps, r.value, attributes)
    decreases |sps|
  {
    if |sps| == 0 then Success([])
    else
      var spMetadata :- GetMetaData(lookup, sps[0].0);
      var released :- DriveProcessingChain(cc, spMetadata, sps[0].0, attributes);
      var entry := MakeEntry(cc, consents, sps[0], spMetadata, released);
      var rest :- ListAsWritten(cc, lookup, consents, sps[1..], released.attributes);
      var r := [(sps[0].0, entry)] + rest;
      assert r[1..] == rest;
      Success(r)
  }

  /** The listing loop as intended: every SP's chain starts from the user's
      own attributes, as the action path does. */
  function ListFresh(cc: ChainContext, lookup: MetadataLookup, consents: map<string, string>,
                     sps: SpList, attributes: Attributes): (r: Result<seq<(string, SpEntry)>, Error>)
    ensures r.Failure? ==> r.error.MetadataNotFound? || r.error.ChainFailed?
    ensures r.Success? ==> RowsDescribe(cc, lookup, consents, sps, r.value)
    ensures r.Success? ==> RowsFresh(cc, lookup, sps, r.value, attributes)
    decreases |sps|
  {
    if |sps| == 0 then Success([])
    else
      var spMetadata :- GetMetaData(lookup, sps[0].0);
      var released :- DriveProcessingChain(cc, spMetadata, sps[0].0, attributes);
      var entry := MakeEntry(cc, consents, sps[0], spMetadata, released);
      var rest :- ListFresh(cc, lookup, consents, sps[1..], attributes);
      var r := [(sps[0].0, entry)] + rest;
      assert r[1..] == rest;
      Success(r)
  }

  /** The as-written listing fails only when a lookup or a chain run fails:
      it succeeds exactly when every SP is found and every threaded chain
      run succeeds. */
  lemma {:induction false} ListAsWrittenSucceeds(cc: ChainContext, lookup: MetadataLookup,
                                                 consents: map<string, string>, sps: SpList, attributes: Attributes)
    ensures ListAsWritten(cc, lookup, consents, sps, attributes).Success? <==> ThreadedRuns(cc, lookup, sps, attributes)
    decreases |sps|
  {
    if |sps| > 0 && lookup(sps[0].0).Some? && ReleaseTo(cc, lookup(sps[0].0).value, attributes).Success? {
      var released := DriveProcessingChain(cc, lookup(sps[0].0).value, sps[0].0, attributes).value;
      ListAsWrittenSucceeds(cc, lookup, consents, sps[1..], released.attributes);
    }
  }

  /** The corrected listing succeeds exactly when every SP is found and
      every chain run on the session's attributes succeeds. */
  lemma {:induction false} ListFreshSucceeds(cc: ChainContext, lookup: MetadataLookup,
                                             consents: map<string, string>, sps: SpList, attributes: Attributes)
    ensures ListFresh(cc, lookup, consents, sps, attributes).Success? <==> FreshRuns(cc, lookup, sps, attributes)
    decreases |sps|
  {
    if |sps| > 0 {
      ListFreshSucceeds(cc, lookup, consents, sps[1..], attributes);
      FreshRunsCons(cc, lookup, sps, attributes);
    }
  }
}

=== FILE: release.dfy ===
/** The passive release simulation: what the attribute-processing chain
    would release to one service provider, minus the attributes that are
    exempt from consent, and the identifiers derived from it. */
module Release {
  import opened Wrappers
  import opened Types
  import opened Strings
  import Identity

  /** The text whose presence in `source` means the login was bridged. */
  const BridgeMarker := "-idp-remote|"

  /** What every chain run of one request shares. */
  datatype ChainContext = ChainContext(
    collaborators: Collaborators,
    idpMetadata: Metadata,
    source: string,
    userId: string,
    hashAttributes: bool,          // `attributes.hash`
    excludeAttributes: seq<string>) // `attributes.exclude`

  /** The remote IdP recovered from `source` for the chain state: the text
      after the first `|`, but only when `source` contains `-idp-remote|`. */
  function BridgedIdp(source: string): (r: Option<string>)
    ensures r.Some? <==> Contains(source, BridgeMarker)
    ensures r.Some? ==>
      var i := |source| - |r.value| - 1;
      0 <= i && source[i] == '|' && '|' !in source[..i] && source[i + 1..] == r.value
  {
    if Contains(source, BridgeMarker) then
      MarkerHasBar(source);
      IndexOfCharFacts(source, '|');
      match IndexOf(source, "|")
      case Some(i) => Some(source[i + 1..])
      case None => None
    else
      None
  }

  lemma MarkerHasBar(source: string)
    requires Contains(source, BridgeMarker)
    ensures '|' in source
  {
    var k := IndexOf(source, BridgeMarker).value;
    assert source[k..k + 12] == BridgeMarker;
    assert source[k + 11] == source[k..k + 12][11];
  }

  /** A bridged source hands the chain exactly the remote IdP it was built
      from. */
  lemma BridgedSourceRoundTrip(idp: string, idpMetadata: Metadata, idpEntityId: string)
    ensures BridgedIdp(Identity.Source(Some(idp), idpMetadata, idpEntityId)) == Some(idp)
  {
    var source := Identity.Source(Some(idp), idpMetadata, idpEntityId);
    assert source[6..18] == BridgeMarker;
    assert OccursAt(source, BridgeMarker, 6);
    assert source[..17] == Identity.RemoteIdpSet;
    IndexOfChar(source, '|', 17);
    assert source[18..] == idp;
  }

  predicate EndsWith(s: string, suffix: string) {
    |suffix| <= |s| && s[|s| - |suffix|..] == suffix
  }

  /** A local login is never taken for a bridged one when neither the
      metadata set nor the entity id contains `|` and the metadata set does
      not end in `-idp-remote`. */
  lemma LocalSourceNotBridged(idpMetadata: Metadata, idpEntityId: string)
    requires '|' !in ToText(Get(idpMetadata, "metadata-set"))
    requires '|' !in idpEntityId
    requires !EndsWith(ToText(Get(idpMetadata, "metadata-set")), "-idp-remote")
    ensures BridgedIdp(Identity.Source(None, idpMetadata, idpEntityId)) == None
  {
    var set' := ToText(Get(idpMetadata, "metadata-set"));
    var source := Identity.Source(None, idpMetadata, idpEntityId);
    assert source == set' + "|" + idpEntityId;
    forall k: nat | k + 12 <= |source|
      ensures !OccursAt(source, BridgeMarker, k)
    {
      var bar := k + 11;
      if bar < |set'| {
        assert source[bar] == set'[bar];
        assert source[k..k + 12][11] != '|';
      } else if bar > |set'| {
        assert source[bar] == idpEntityId[bar - |set'| - 1];
        assert source[k..k + 12][11] != '|';
      } else {
        assert source[k..k + 11] == set'[|set'| - 11..];
        assert source[k..k + 12][..11] == source[k..k + 11];
        assert BridgeMarker[..11] == "-idp-remote";
      }
    }
  }

  /** `destination`: the service provider's metadata set and entity id. */
  function Destination(spMetadata: Metadata, spEntityId: string): string {
    ToText(Get(spMetadata, "metadata-set")) + "|" + spEntityId
  }

  /** A destination is the metadata set's name, `|`, then the entity id. */
  lemma DestinationParts(spMetadata: Metadata, spEntityId: string)
    ensures var d, set' := Destination(spMetadata, spEntityId), ToText(Get(spMetadata, "metadata-set"));
      && |d| == |set'| + 1 + |spEntityId|
      && d[..|set'|] == set' && d[|set'|] == '|' && d[|set'| + 1..] == spEntityId
  {
  }

  /** Different service providers get different destinations (and so
      different targeted ids) as long as metadata set names contain no `|`. */
  lemma DestinationInjective(m1: Metadata, e1: string, m2: Metadata, e2: string)
    requires '|' !in ToText(Get(m1, "metadata-set")) && '|' !in ToText(Get(m2, "metadata-set"))
    requires Destination(m1, e1) == Destination(m2, e2)
    ensures ToText(Get(m1, "metadata-set")) == ToText(Get(m2, "metadata-set")) && e1 == e2
  {
    SplitAtFirst(ToText(Get(m1, "metadata-set")), e1, ToText(Get(m2, "metadata-set")), e2, '|');
  }

  /** Drop every attribute whose name is listed in `attributes.exclude`. */
  function ExcludeAttributes(attributes: Attributes, exclude: seq<string>): (r: Attributes)
    ensures forall k :: k in r ==> k !in exclude
    ensures forall k :: k in attributes && k !in exclude ==> k in r && r[k] == attributes[k]
    ensures r.Keys <= attributes.Keys
  {
    map k | k in attributes && k !in exclude :: attributes[k]
  }

  /** Excluding is idempotent. */
  lemma ExcludeIdempotent(attributes: Attributes, exclude: seq<string>)
    ensures ExcludeAttributes(ExcludeAttributes(attributes, exclude), exclude)
         == ExcludeAttributes(attributes, exclude)
  {
  }

  /** Excluded attributes never influence the result: two chain outputs that
      agree on every non-excluded attribute give the same released set, so
      the same attribute hash. */
  lemma ExcludedAttributesIgnored(a1: Attributes, a2: Attributes, exclude: seq<string>)
    requires forall k :: k !in exclude ==> (k in a1 <==> k in a2)
    requires forall k :: k in a1 && k in a2 && k !in exclude ==> a1[k] == a2[k]
    ensures ExcludeAttributes(a1, exclude) == ExcludeAttributes(a2, exclude)
  {
  }

  /** Deleting an excluded attribute beforehand changes nothing. */
  lemma DeleteExcludedFirst(attributes: Attributes, exclude: seq<string>, name: string)
    requires name in exclude
    ensures ExcludeAttributes(attributes - {name}, exclude) == ExcludeAttributes(attributes, exclude)
  {
  }

  /** The chain state: the attributes and both metadata records, marked
      passive, with the remote IdP added when `source` is bridged. */
  function InitialState(cc: ChainContext, spMetadata: Metadata, attributes: Attributes): (st: ChainState)
    ensures st.isPassive && st.attributes == attributes
    ensures st.bridgedIdp == BridgedIdp(cc.source)
    ensures st.spMetadata == spMetadata && st.idpMetadata == cc.idpMetadata
  {
    ChainState(attributes, spMetadata, cc.idpMetadata, BridgedIdp(cc.source), true)
  }

  /** The attributes released to a service provider: the passive chain's
      output with the excluded attributes removed. A chain failure aborts. */
  function ReleaseTo(cc: ChainContext, spMetadata: Metadata, attributes: Attributes): (r: Result<Attributes, Error>)
    ensures r.Success? <==> cc.collaborators.processStatePassive(InitialState(cc, spMetadata, attributes)).Success?
    ensures r.Failure? ==> r.error.ChainFailed?
    ensures r.Success? ==> forall k :: k in r.value ==> k !in cc.excludeAttributes
    ensures r.Success? ==>
      var out := cc.collaborators.processStatePassive(InitialState(cc, spMetadata, attributes)).value;
      forall k :: k in out && k !in cc.excludeAttributes ==> k in r.value && r.value[k] == out[k]
    ensures r.Success? ==>
      r.value.Keys <= cc.collaborators.processStatePassive(InitialState(cc, spMetadata, attributes)).value.Keys
  {
    match cc.collaborators.processStatePassive(InitialState(cc, spMetadata, attributes))
    case Failure(message) => Failure(ChainFailed(message))
    case Success(out) => Success(ExcludeAttributes(out, cc.excludeAttributes))
  }

  /** The targeted id of (user, source, destination): it does not depend on
      the attributes. */
  function TargetedIdFor(cc: ChainContext, spMetadata: Metadata, spEntityId: string): string {
    cc.collaborators.targetedId(cc.userId, cc.source, Destination(spMetadata, spEntityId))
  }

  /** The targeted id `driveProcessingChain` returns is the same whatever
      attributes the chain is given. */
  lemma TargetedIdIgnoresAttributes(cc: ChainContext, spMetadata: Metadata, spEntityId: string,
                                    a1: Attributes, a2: Attributes)
    requires DriveProcessingChain(cc, spMetadata, spEntityId, a1).Success?
    requires DriveProcessingChain(cc, spMetadata, spEntityId, a2).Success?
    ensures DriveProcessingChain(cc, spMetadata, spEntityId, a1).value.targetedId
         == DriveProcessingChain(cc, spMetadata, spEntityId, a2).value.targetedId
  {
  }

  /** What `driveProcessingChain` returns. */
  datatype Released = Released(targetedId: string, attributeHash: string, attributes: Attributes)

  /** `driveProcessingChain`: the released attributes with the targeted id
      of (user, source, destination) and the hash of exactly those
      attributes. */
  function DriveProcessingChain(cc: ChainContext, spMetadata: Metadata, spEntityId: string, attributes: Attributes)
    : (r: Result<Released, Error>)
    ensures r.Success? <==> ReleaseTo(cc, spMetadata, attributes).Success?
    ensures r.Failure? ==> r.error.ChainFailed?
    ensures r.Success? ==> r.value.attributes == ReleaseTo(cc, spMetadata, attributes).value
    ensures r.Success? ==> r.value.targetedId == TargetedIdFor(cc, spMetadata, spEntityId)
    ensures r.Success? ==>
      r.value.attributeHash == cc.collaborators.attributeHash(r.value.attributes, cc.hashAttributes)
  {
    var released :- ReleaseTo(cc, spMetadata, attributes);
    Success(Released(
      TargetedIdFor(cc, spMetadata, spEntityId),
      cc.collaborators.attributeHash(released, cc.hashAttributes),
      released))
  }
}

=== FILE: round_trips.dfy ===
/** What a checkbox action does to the next listing of the same page. */
module RoundTrips {
  import opened Wrappers
  import opened Types
  import opened Release
  import opened Consents
  import opened Listing
  import opened Action
  import opened ConsentAdmin

  /** The listing request: neither `cv` nor `action`. */
  const ListRequest := Request(None, None)

  /** After `action=false` for an SP, the next listing of the same page
      (same user, session and configuration) shows that SP as `none`,
      whatever the other SPs released before it. */
  lemma RevokeThenListNone(p: Prepared, env: Environment, cfg: ModuleConfig, sp: string,
                           store: ConsentStore, store1: ConsentStore, entries: seq<(string, SpEntry)>, i: nat)
    requires ApplyAction(p, env, sp, "false", store) == Success(Response(ActionPage(Some(false)), store1))
    requires ShowListing(p, env, cfg, store1) == Success(Response(ListingPage(entries, cfg.showDescription), store1))
    requires i < |entries| && entries[i].0 == sp
    ensures entries[i].1.consentStatus == StatusNone
  {
    var meta := env.spMetadata(sp).value;
    var released := DriveProcessingChain(p.cc, meta, sp, env.attributes).value;
    var consents := StoredConsents(p, store1);
    NoRowNoConsent(store1, p.hashedUserId, released.targetedId);
    assert entries == ListAsWritten(p.cc, env.spMetadata, consents, p.sps, env.attributes).value;
    assert Describes(p.cc, env.spMetadata, consents, p.sps[i], entries[i].1);
  }

  /** As written, after `action=true` the next listing shows the SP as `ok`
      when it is the first SP listed: its chain input is the session's
      attributes, as on the action path. */
  lemma GrantThenListFirstOk(p: Prepared, env: Environment, cfg: ModuleConfig, sp: string,
                             store: ConsentStore, store1: ConsentStore, entries: seq<(string, SpEntry)>)
    requires ApplyAction(p, env, sp, "true", store) == Success(Response(ActionPage(Some(true)), store1))
    requires ShowListing(p, env, cfg, store1) == Success(Response(ListingPage(entries, cfg.showDescription), store1))
    requires 0 < |entries| && entries[0].0 == sp
    ensures entries[0].1.consentStatus == StatusOk
  {
    var meta := env.spMetadata(sp).value;
    var released := DriveProcessingChain(p.cc, meta, sp, env.attributes).value;
    var consents := StoredConsents(p, store1);
    LastPairWins(GetConsents(store1, p.hashedUserId));
    assert entries == ListAsWritten(p.cc, env.spMetadata, consents, p.sps, env.attributes).value;
    assert Describes(p.cc, env.spMetadata, consents, p.sps[0], entries[0].1);
    assert ReleasedFrom(p.cc, env.spMetadata, p.sps[0], env.attributes, entries[0].1);
  }

  /** With fresh attributes per SP, after `action=true` the next listing
      shows that SP as `ok` wherever it is listed. */
  lemma GrantThenListOk(p: Prepared, env: Environment, cfg: ModuleConfig, sp: string,
                        store: ConsentStore, store1: ConsentStore, entries: seq<(string, SpEntry)>, i: nat)
    requires ApplyAction(p, env, sp, "true", store) == Success(Response(ActionPage(Some(true)), store1))
    requires ShowListingCorrected(p, env, cfg, store1) == Success(Response(ListingPage(entries, cfg.showDescription), store1))
    requires i < |entries| && entries[i].0 == sp
    ensures entries[i].1.consentStatus == StatusOk
  {
    var meta := env.spMetadata(sp).value;
    var released := DriveProcessingChain(p.cc, meta, sp, env.attributes).value;
    var consents := StoredConsents(p, store1);
    LastPairWins(GetConsents(store1, p.hashedUserId));
    assert entries == ListFresh(p.cc, env.spMetadata, consents, p.sps, env.attributes).value;
    assert Describes(p.cc, env.spMetadata, consents, p.sps[i], entries[i].1);
    assert ReleasedFrom(p.cc, env.spMetadata, p.sps[i], env.attributes, entries[i].1);
  }

  /** A chain that releases to an SP only the attribute its metadata names
      under `attributes`, as an attribute-limit rule would. */
  function LimitByMetadata(st: ChainState): Result<Attributes, string> {
    Success(map k | k in st.attributes && Get(st.spMetadata, "attributes") == MStr(k) :: st.attributes[k])
  }

  /** Collaborators for the scenario: the attribute hash only tells whether
      `mail` is released. */
  const ScenarioCollaborators := Collaborators(
    (u: string, s: string) => u,
    (u: string, s: string, d: string) => d,
    (a: Attributes, h: bool) => if "mail" in a then "with mail" else "without mail",
    LimitByMetadata)

  /** Two SPs: `sp1` is released `cn`, `sp2` is released `mail`. */
  function ScenarioLookup(id: string): Option<Metadata> {
    if id == "sp1" then Some(map["attributes" := MStr("cn")])
    else if id == "sp2" then Some(map["attributes" := MStr("mail")])
    else None
  }

  const ScenarioEnvironment := Environment(
    map["eduPersonPrincipalName" := ["u1"], "cn" := ["User One"], "mail" := ["u1@example.org"]],
    None,
    "idp",
    map[],
    [("sp1", map[]), ("sp2", map[])],
    ScenarioLookup)

  const ScenarioConfig := ModuleConfig(false, [], MNull)

  /** From the session's attributes `sp2` is released `mail`. */
  lemma ScenarioGrantReleased()
    ensures var r := DriveProcessingChain(ScenarioChain, ScenarioLookup("sp2").value, "sp2",
                                          ScenarioEnvironment.attributes);
      r.Success? && r.value.targetedId == "|sp2" && r.value.attributeHash == "with mail"
  {
    var meta2 := ScenarioLookup("sp2").value;
    var out2 := LimitByMetadata(InitialState(ScenarioChain, meta2, ScenarioEnvironment.attributes)).value;
    assert "mail" in out2;
    assert Destination(meta2, "sp2") == "|sp2";
  }

  /** Saving into the empty store gives the one-row store. */
  lemma ScenarioSave()
    ensures SaveConsent([], "u1", "|sp2", "with mail") == (GrantedStore, true)
  {
    assert WithoutConsent([], "u1", "|sp2") == [];
  }

  /** The store after `action=true` for `sp2`: one row, hashing `mail`. */
  lemma ScenarioGrant()
    ensures Serve(ScenarioCollaborators, ScenarioEnvironment, ScenarioConfig, Request(Some("sp2"), Some("true")), [])
            == Success(Response(ActionPage(Some(true)), GrantedStore))
  {
    var c, env, cfg := ScenarioCollaborators, ScenarioEnvironment, ScenarioConfig;
    var p := Prepared(ScenarioChain, "u1", env.spList);
    ScenarioPrepared();
    ScenarioGrantReleased();
    ScenarioSave();
    assert ApplyAction(p, env, "sp2", "true", []) == Success(Response(ActionPage(Some(true)), GrantedStore));
    ServeSplits(c, env, cfg, Request(Some("sp2"), Some("true")), [], p);
  }

  /** The store after the grant, as one row. */
  const GrantedStore := [ConsentRow("u1", "|sp2", "with mail")]

  /** The scenario's chain context: user `u1` logged in locally at `idp`. */
  const ScenarioChain := ChainContext(ScenarioCollaborators, map[], "|idp", "u1", false, [])

  lemma ScenarioPrepared()
    ensures Prepare(ScenarioCollaborators, ScenarioEnvironment, ScenarioConfig)
            == Success(Prepared(ScenarioChain, "u1", ScenarioEnvironment.spList))
  {
    KeepNothingDisabled(ScenarioEnvironment.spList);
    assert Identity.Source(None, map[], "idp") == "|idp";
  }

  /** `sp1` is released no `mail`; `sp2`, given no `mail`, hashes none. */
  lemma ScenarioReleases()
    ensures var r1 := DriveProcessingChain(ScenarioChain, ScenarioLookup("sp1").value, "sp1",
                                           ScenarioEnvironment.attributes);
      r1.Success? && "mail" !in r1.value.attributes
    ensures forall a: Attributes :: "mail" !in a ==>
      var r2 := DriveProcessingChain(ScenarioChain, ScenarioLookup("sp2").value, "sp2", a);
      r2.Success? && r2.value.targetedId == "|sp2" && r2.value.attributeHash == "without mail"
  {
    var meta1, meta2 := ScenarioLookup("sp1").value, ScenarioLookup("sp2").value;
    var out1 := LimitByMetadata(InitialState(ScenarioChain, meta1, ScenarioEnvironment.attributes)).value;
    assert "mail" !in out1;
    assert Destination(meta2, "sp2") == "|sp2";
    forall a: Attributes | "mail" !in a
      ensures var r2 := DriveProcessingChain(ScenarioChain, meta2, "sp2", a);
        r2.Success? && r2.value.targetedId == "|sp2" && r2.value.attributeHash == "without mail"
    {
      var out2 := LimitByMetadata(InitialState(ScenarioChain, meta2, a)).value;
      assert "mail" !in out2;
    }
  }

  /** The listing loop of the scenario: `sp2`'s chain sees only what `sp1`
      was released, so its row hashes no `mail`. */
  lemma ScenarioRows()
    ensures var rows := ListAsWritten(ScenarioChain, ScenarioLookup, map["|sp2" := "with mail"],
                                      ScenarioEnvironment.spList, ScenarioEnvironment.attributes);
      && rows.Success?
      && |rows.value| == 2
      && rows.value[1].0 == "sp2"
      && rows.value[1].1.consentStatus == StatusChanged
  {
    var env := ScenarioEnvironment;
    var consents := map["|sp2" := "with mail"];
    ScenarioReleases();
    var released1 := DriveProcessingChain(ScenarioChain, ScenarioLookup("sp1").value, "sp1", env.attributes).value;
    var tail := env.spList[1..];
    assert tail[0].0 == "sp2" && tail[1..] == [];
    var meta2 := ScenarioLookup("sp2").value;
    assert GetMetaData(ScenarioLookup, "sp2") == Success(meta2);
    var released2 := DriveProcessingChain(ScenarioChain, meta2, "sp2", released1.attributes).value;
    assert ListAsWritten(ScenarioChain, ScenarioLookup, consents, tail[1..], released2.attributes) == Success([]);
    var rest := ListAsWritten(ScenarioChain, ScenarioLookup, consents, tail, released1.attributes);
    assert rest.Success?;
    var rows := ListAsWritten(ScenarioChain, ScenarioLookup, consents, env.spList, env.attributes);
    assert rows.Success?;
    var e := rows.value;
    assert ReleasedFrom(ScenarioChain, ScenarioLookup, env.spList[0], env.attributes, e[0].1);
    assert e[0].1.attributesBySp == released1.attributes;
    assert ReleasedFrom(ScenarioChain, ScenarioLookup, env.spList[1], e[0].1.attributesBySp, e[1].1);
    assert Describes(ScenarioChain, ScenarioLookup, consents, env.spList[1], e[1].1);
  }

  /** The next listing page shows `sp2` as `changed`. */
  lemma ScenarioListing()
    ensures var listed := Serve(ScenarioCollaborators, ScenarioEnvironment, ScenarioConfig, ListRequest, GrantedStore);
      && listed.Success?
      && listed.value.page.ListingPage?
      && |listed.value.page.entries| == 2
      && listed.value.page.entries[1].0 == "sp2"
      && listed.value.page.entries[1].1.consentStatus == StatusChanged
  {
    ScenarioPrepared();
    var p := Prepared(ScenarioChain, "u1", ScenarioEnvironment.spList);
    assert GetConsents(GrantedStore, "u1") == [("|sp2", "with mail")];
    assert StoredConsents(p, GrantedStore) == map["|sp2" := "with mail"];
    ScenarioRows();
    ServeSplits(ScenarioCollaborators, ScenarioEnvironment, ScenarioConfig, ListRequest, GrantedStore, p);
  }

  /** As written, consent given to the second SP reads as `changed` on the
      very next listing: the listing runs `sp2`'s chain on what `sp1` was
      released (`cn` only), while the action hashed what `sp2` is released
      from the session's attributes (`mail` only). */
  lemma GrantThenListChangedAsWritten()
    ensures var granted := Serve(ScenarioCollaborators, ScenarioEnvironment, ScenarioConfig,
                                 Request(Some("sp2"), Some("true")), []);
      && granted.Success?
      && var listed := Serve(ScenarioCollaborators, ScenarioEnvironment, ScenarioConfig, ListRequest, granted.value.store);
      && listed.Success?
      && listed.value.page.ListingPage?
      && |listed.value.page.entries| == 2
      && listed.value.page.entries[1].0 == "sp2"
      && listed.value.page.entries[1].1.consentStatus == StatusChanged
  {
    ScenarioGrant();
    ScenarioListing();
  }
}

=== FILE: strings.dfy ===
/** Substring search as PHP's `strpos` does it: the first occurrence. */
module Strings {
  import opened Wrappers

  predicate OccursAt(s: string, p: string, i: nat) {
    i + |p| <= |s| && s[i..i + |p|] == p
  }

  /** The first position at or after `from` where `p` occurs in `s`. */
  function IndexFrom(s: string, p: string, from: nat): (r: Option<nat>)
    requires from <= |s|
    ensures r.Some? ==> from <= r.value && OccursAt(s, p, r.value)
    ensures r.Some? ==> forall j :: from <= j < r.value ==> !OccursAt(s, p, j)
    ensures r.None? ==> forall j :: from <= j <= |s| ==> !OccursAt(s, p, j)
    decreases |s| - from
  {
    if OccursAt(s, p, from) then Some(from)
    else if from == |s| then None
    else IndexFrom(s, p, from + 1)
  }

  /** `strpos($s, $p)`: `None` stands for PHP's `false`. */
  function IndexOf(s: string, p: string): (r: Option<nat>)
    ensures r.Some? ==> OccursAt(s, p, r.value)
    ensures r.Some? ==> forall j :: 0 <= j < r.value ==> !OccursAt(s, p, j)
    ensures r.None? ==> forall j :: 0 <= j <= |s| ==> !OccursAt(s, p, j)
  {
    IndexFrom(s, p, 0)
  }

  predicate Contains(s: string, p: string) {
    IndexOf(s, p).Some?
  }

  lemma OccursAtChar(s: string, c: char, i: nat)
    ensures OccursAt(s, [c], i) <==> i < |s| && s[i] == c
  {
    if i < |s| {
      assert s[i..i + 1] == [s[i]];
    }
  }

  /** The first `c` in `s` is at `i` exactly when `s[i]` is `c` and no
      earlier character is. */
  lemma {:induction false} IndexOfChar(s: string, c: char, i: nat)
    requires i < |s| && s[i] == c && c !in s[..i]
    ensures IndexOf(s, [c]) == Some(i)
  {
    OccursAtChar(s, c, i);
    forall j: nat | j < i
      ensures !OccursAt(s, [c], j)
    {
      OccursAtChar(s, c, j);
      assert s[..i][j] == s[j];
    }
  }

  /** `strpos` finds a character exactly when the string holds it, and
      nothing before the position it reports is that character. */
  lemma IndexOfCharFacts(s: string, c: char)
    ensures IndexOf(s, [c]).Some? <==> c in s
    ensures IndexOf(s, [c]).Some? ==>
      var i := IndexOf(s, [c]).value; i < |s| && s[i] == c && c !in s[..i]
  {
    var r := IndexOf(s, [c]);
    if c in s {
      var i :| 0 <= i < |s| && s[i] == c;
      OccursAtChar(s, c, i);
    }
    if r.Some? {
      OccursAtChar(s, c, r.value);
      forall j | 0 <= j < r.value
        ensures s[..r.value][j] != c
      {
        OccursAtChar(s, c, j);
      }
    }
  }

  /** Joining two parts with a separator that the first part does not
      contain can be undone: the first separator marks the join. */
  lemma {:induction false} SplitAtFirst(a: string, b: string, c: string, d: string, sep: char)
    requires sep !in a && sep !in c
    requires a + [sep] + b == c + [sep] + d
    ensures a == c && b == d
  {
    var s := a + [sep] + b;
    assert s[..|a|] == a;
    assert s[..|c|] == c;
    IndexOfChar(s, sep, |a|);
    IndexOfChar(s, sep, |c|);
    assert s[|a| + 1..] == b;
    assert s[|c| + 1..] == d;
  }
}

=== FILE: types.dfy ===
/** The values the controller handles: attribute sets, metadata records
    (PHP arrays read by key), the errors it raises, and the collaborators
    whose code lives outside the controller. */
module Types {
  import opened Wrappers

  /** A user's attributes: attribute name to its list of values. */
  type Attributes = map<string, seq<string>>

  /** A value stored under one key of a metadata record.
      `MArr` is a PHP array of strings (a localized text keyed by language,
      or a list keyed by position); `MScalar` is a bool or number, carried
      with its PHP string conversion. */
  datatype MetaValue =
    | MNull
    | MStr(s: string)
    | MScalar(repr: string)
    | MArr(items: seq<(string, string)>)

  /** A metadata record, as returned by the metadata handler. */
  type Metadata = map<string, MetaValue>

  /** `$m[key]`: a missing key reads as null. */
  function Get(m: Metadata, key: string): (v: MetaValue)
    ensures key !in m ==> v == MNull
    ensures key in m ==> v == m[key]
  {
    if key in m then m[key] else MNull
  }

  /** `isset($m[key])`: present and not null. */
  predicate IsSet(m: Metadata, key: string) {
    key in m && !m[key].MNull?
  }

  /** PHP's string conversion of a value used in a concatenation. */
  function ToText(v: MetaValue): string {
    match v
    case MNull => ""
    case MStr(s) => s
    case MScalar(repr) => repr
    case MArr(_) => "Array"
  }

  /** The exceptions that abort a request. */
  datatype Error =
    | MissingUserId(attributeName: string)   // no value for the user-id attribute
    | MetadataNotFound(entityId: string)     // getMetaData found no such entity
    | ChainFailed(message: string)           // the processing chain threw

  /** The state handed to the passive processing chain. */
  datatype ChainState = ChainState(
    attributes: Attributes,
    spMetadata: Metadata,        // both 'Destination' and 'SPMetadata'
    idpMetadata: Metadata,       // both 'Source' and 'IdPMetadata'
    bridgedIdp: Option<string>,  // 'saml:sp:IdP', set only when bridged
    isPassive: bool)

  /** Code the controller calls but does not contain: the salted hashes of
      the consent module and the attribute-processing chain. Each is
      deterministic: the same inputs always give the same output. */
  datatype Collaborators = Collaborators(
    hashedUserId: (string, string) -> string,          // (userid, source)
    targetedId: (string, string, string) -> string,    // (userid, source, destination)
    attributeHash: (Attributes, bool) -> string,       // (attributes, attributes.hash)
    processStatePassive: ChainState -> Result<Attributes, string>)

  /** `getMetaData($id, 'saml20-sp-remote')` of the metadata handler:
      `None` when the entity is unknown. */
  type MetadataLookup = string -> Option<Metadata>

  /** The lookup as the controller sees it: an unknown entity throws. */
  function GetMetaData(lookup: MetadataLookup, entityId: string): (r: Result<Metadata, Error>)
    ensures r.Success? <==> lookup(entityId).Some?
    ensures r.Success? ==> r.value == lookup(entityId).value
    ensures r.Failure? ==> r.error == MetadataNotFound(entityId)
  {
    match lookup(entityId)
    case Some(m) => Success(m)
    case None => Failure(MetadataNotFound(entityId))
  }
}

=== FILE: wrappers.dfy ===
/** Failure-compatible wrappers used across the model: PHP's `null` becomes
    `None`, a thrown exception becomes a `Failure`. */
module Wrappers {

  datatype Option<+T> = None | Some(value: T)

  datatype Result<+R, +E> = Success(value: R) | Failure(error: E) {

    predicate IsFailure() {
      Failure?
    }

    function PropagateFailure<U>(): Result<U, E>
      requires Failure?
    {
      Failure(error)
    }

    function Extract(): R
      requires Success?
    {
      value
    }
  }
}
